=== FILE: README.md ===
# svgraphjs parser, modelled in Dafny

`parser.py` translates a small subset of SVG into initialisation statements
for the Raphaël drawing library. It works in two stages:

1. **Collector** (`SVGParser.parse`). It visits every element of the document.
   It strips a `{uri}` namespace prefix from tag and attribute names
   (`_normalize`). It then appends each element's attribute map to a bucket
   keyed by the element's local tag name.
2. **Emitter** (`SVGParser.to_raphael`). It walks the buckets and produces the
   output statements:
   - up to three variable declarations from the first `svg` element;
   - for each `rect` carrying all of `id,x,y,width,height`, a construction
     statement, plus an attribute statement of its parsed style when it has
     a `style` (`create_rect`); a `rect` missing any of them yields nothing;
   - for each `path` whose `type` is `arc`, a construction statement when it
     carries all of `id,cx,cy,rx,ry`, and an attribute statement whenever it
     has a `style`, which joins the construction statement, if any, rather
     than the style entries (`create_path`).

   Style strings `prop:value;prop:value` are parsed by `create_element_attr`.
   Each half of a style pair is quoted by `_quote_element`.

The model is written in plain functions over immutable values:

| file | module | what it holds |
|---|---|---|
| `results.dfy` | `Results` | `Option`, `Result` and `Error`. `Error` has one constructor per raise site of the source. |
| `text.dfy` | `Text` | The Python string operations the source relies on: `split` on one character, `join`, ASCII `isdigit`, `int(...)` and `"%s" % n`. |
| `names.dfy` | `Names` | `_normalize` and the local part of a name. |
| `collector.dfy` | `Collector` | The per-node loop of `parse`, over a given sequence of visited nodes. |
| `style.dfy` | `Style` | `_quote_element`, `_create_js_element` and `create_element_attr`. |
| `emitter.dfy` | `Emitter` | The templates, `create_rect`, `create_path` and `to_raphael`. |

Four behaviours of the code are easy to misread:

- **`create_path` style statement.** Unlike `create_rect`, `create_path`
  joins `ellipse`, the statements emitted so far for the path, and not the
  parsed style entries (parser.py:98-99). `Emitter.CreatePath` models this as
  written. `Emitter.PathAttrJoinsConstruction` spells out the result: for an
  arc with a well-formed style, the attribute statement joins the
  construction statement, or nothing, and never the style entries.
- **Style statement without the required attributes.** The style check in
  `create_path` sits outside the `ARC_ATTRS` check (parser.py:91-99). So an
  arc with a style but without its required attributes still gets an
  attribute statement. Its id is `None` when the `id` attribute is missing.
- **Tag order.** `to_raphael` iterates the collection in dictionary order
  (parser.py:108), so the `svg`, `rect` and `path` statements can come out in
  any relative order. The model takes that order as a parameter, and
  `Emitter.ToRaphael` states what holds for every order.
- **`if attr:` test.** A successful `create_element_attr` always returns at
  least one entry (`Style.ParseStyle`), so the `if attr:` tests in
  `create_rect` and `create_path` (parser.py:83 and parser.py:97) never fail.
  A style ending in `;` raises instead (`Style.TrailingSemicolonFails`).

## Model

| member | source | states |
|---|---|---|
| `Text.Join` | parser.py:85 | `",".join(...)` (also parser.py:99): a definition with no contract of its own; `Text.Split`, `Text.SplitJoin`, `Emitter.CreateRect` and `Emitter.CreatePath` are stated through it |
| `Text.Split` | parser.py:67-69 | `str.split` on one character: one more piece than separators, no piece contains the separator, and joining the pieces gives the string back |
| `Text.SplitJoin` | parser.py:67-69 | splitting undoes joining: separator-free pieces joined with the separator split back into exactly those pieces |
| `Text.SplitTrailingSeparator` | parser.py:67-69 | a string ending in the separator splits into a last piece that is empty |
| `Text.IsDigits` | parser.py:53 | `isdigit()` on ASCII digits: a definition with no contract of its own; `Style.QuoteElement` and `Style.QuoteDropsLeadingZeros` are stated through it |
| `Text.ValueOf` | parser.py:54 | `int(...)` on a digit string: a definition with no contract of its own; `Text.Decimal`, `Text.DecimalOfCanonical` and `Style.QuoteDropsLeadingZeros` are stated through it |
| `Text.Decimal` | parser.py:70-71 | `"%s" % n` prints a canonical numeral (no superfluous leading zero) whose value is `n` |
| `Text.DecimalOfCanonical` | parser.py:53-54 | reading a canonical numeral with `int` and printing it back gives the same text |
| `Names.Normalize` | parser.py:46-50 | `_normalize` succeeds exactly on a non-empty name that does not start with `{` or contains exactly one `}`; a plain name comes back unchanged; an expanded name is split into a brace-free URI and local name that rebuild it; the empty name raises IndexError |
| `Names.NormalizeExpanded` | parser.py:46-48 | conversely, `{uri}local` with brace-free parts normalises to exactly `(uri, local)` |
| `Names.SameLocalName` | parser.py:27-29 | `{uri}tag` and bare `tag` have the same local name, so they share a bucket |
| `Collector.LocalName` | parser.py:27-29 | the local part exists exactly when the raw name is non-empty and either does not start with `{` or has exactly one `}`; a name without `{` is its own local part; otherwise the local part is brace-free and is what follows the name's only `}` |
| `Collector.LocalAttrs` | parser.py:31-36 | `attr_list` pairs each attribute's local name with its raw value, one pair per attribute in order; a bad name aborts |
| `Collector.ToMap` | parser.py:38 | `dict(attr_list)` has exactly the listed keys, and each key maps to the value of its last occurrence |
| `Collector.ToMapSnoc` | parser.py:38 | adding one pair to `dict(...)`'s input adds its key with its value and leaves every key whose last occurrence came earlier unchanged |
| `Collector.Visit` | parser.py:27-38 | a node's bucket key is the tag's local part, which is the raw tag itself when the tag has no `{uri}` prefix; the node fails exactly when its tag or its attribute list fails to normalise |
| `Collector.VisitSucceeds` | parser.py:27-36 | a node is visited exactly when its tag and each one of its attribute names normalise |
| `Collector.VisitMap` | parser.py:31-38 | each attribute map's keys are the local names of the node's attributes, and each key holds the raw value of the last attribute with that local name |
| `Collector.Append` | parser.py:38 | appending grows only the named bucket, by exactly the one map, and creates it if missing |
| `Collector.Bucket` | parser.py:115-118 | reading `self.element[tag]` (also parser.py:38), empty for a tag never filed: a definition with no contract of its own; `Collector.Append`, `Collector.CollectGroups` and `Emitter.ToRaphael` are stated through it |
| `Collector.Collect` | parser.py:26-38 | the loop succeeds exactly when every node can be visited, and every bucket it creates is non-empty |
| `Collector.CollectGroups` | parser.py:26-38 | each bucket is exactly the maps of the nodes with that local tag, in traversal order |
| `Collector.CollectKeys` | parser.py:26-38 | there is a bucket for exactly the local tags that occur |
| `Collector.TagsSnoc` | parser.py:26-38 | visiting one more node adds exactly its local tag to the set of tags seen |
| `Collector.CollectKeepsEveryNode` | parser.py:26-38 | all buckets together, in any duplicate-free order, are a rearrangement of the node maps; bucket sizes sum to the node count |
| `Style.QuoteElement` | parser.py:52-56 | a digit token becomes a canonical numeral obtained by dropping only leading zeros; any other token, `""` included, is wrapped in double quotes |
| `Style.QuoteDropsLeadingZeros` | parser.py:53-54 | the digit branch equals `int(token)` printed with `%s`, and it keeps the token unchanged exactly when the token has no superfluous leading zero |
| `Style.QuoteZeroPadded` | parser.py:53-54 | a canonical numeral with any number of leading zeros prepended is still all digits, and it is quoted as the bare numeral |
| `Style.QuoteNumberExamples` | parser.py:53-54 | `"007"` gives `7` and `"0"` gives `0` |
| `Style.QuoteWordExamples` | parser.py:55-56 | `""` and `red` are wrapped in double quotes |
| `Style.JsStatement` | parser.py:58-63 | `_create_js_element` ends in `;` and starts with `init` and a blank when `init` is given |
| `Style.JsStatementRoundTrip` | parser.py:58-63 | with an empty `init`, the statement assigns exactly `value` to `variable` (recovered by `AssignedValue`) |
| `Style.StyleEntry` | parser.py:69-71 | a segment succeeds exactly when it has one `:`; otherwise it raises with the piece count |
| `Style.StyleEntries` | parser.py:68-72 | the loop succeeds exactly when every segment has one `:`, and then yields one entry per segment, in order |
| `Style.ParseStyle` | parser.py:65-72 | `create_element_attr` succeeds exactly when every `;`-segment has one `:`, and it then returns one entry per segment, so never an empty list |
| `Style.TrailingSemicolonFails` | parser.py:67-69 | a style ending in `;` always raises |
| `Style.ParseWrittenStyle` | parser.py:65-72 | a style written from separator-free declarations parses to one `QuoteElement(prop):QuoteElement(value)` entry per declaration, in order |
| `Emitter.Get` | parser.py:90-92 | `m.get(k)` (also parser.py:98), `None` for a missing key: a definition with no contract of its own; `Emitter.CreatePath` and `Emitter.PathAttrJoinsConstruction` are stated through it |
| `Emitter.CreateRect` | parser.py:74-86 | nothing unless all of `id,x,y,width,height` are present; otherwise one statement assigning the rect template to `id`, plus exactly one attribute statement of the joined style entries when `style` is present; raises exactly on a malformed style |
| `Emitter.CreatePath` | parser.py:88-101 | nothing unless `type` is `arc`; for an arc, the ellipse statement exactly when all of `id,cx,cy,rx,ry` are present, and separately an attribute statement when `style` is present, built by joining the statements before it; raises exactly on a malformed style |
| `Emitter.PathAttrJoinsConstruction` | parser.py:91-99 | for an arc with a well-formed style: with all of `id,cx,cy,rx,ry` the attribute statement joins the construction statement; without them it joins nothing. It never carries the parsed style entries |
| `Emitter.ConcatMap` | parser.py:115-119 | emitting a bucket succeeds exactly when every map succeeds |
| `Emitter.ConcatMapAppend` | parser.py:115-119 | emitting a bucket is a concatenation over its maps in bucket order; the first error wins |
| `Emitter.ConcatMapSingle` | parser.py:115-116 | one map contributes exactly `create_rect`/`create_path` of it |
| `Emitter.Rects` | parser.py:114-116 | the `rect` loop succeeds exactly when every rect's `create_rect` succeeds; its statements are fixed by `ConcatMapAppend` and `ConcatMapSingle` |
| `Emitter.Paths` | parser.py:117-119 | the `path` loop succeeds exactly when every path's `create_path` succeeds; its statements are fixed by `ConcatMapAppend` and `ConcatMapSingle` |
| `Emitter.SvgPart` | parser.py:109-113 | no contract of its own: the declarations of the first `svg` map, characterised by `SvgDeclarations` and, within the output, by `ToRaphael` |
| `Emitter.Contribution` | parser.py:109-119 | a tag other than `svg`, `rect`, `path` contributes nothing, and only `rect` and `path` can raise |
| `Emitter.SvgKeys` | parser.py:110-111 | the kept `svg` keys are exactly the first map's keys among `id,width,height` |
| `Emitter.SvgDeclarations` | parser.py:110-113 | one declaration of key and value per kept key of the first `svg` map, and every kept key is declared |
| `Emitter.SvgDeclarationCount` | parser.py:110-113 | the number of declarations is the number of `id,width,height` keys present |
| `Emitter.FullSvgThreeDeclarations` | parser.py:110-113 | with `id`, `width` and `height` all present there are exactly three declarations, in any order |
| `Emitter.ToRaphael` | parser.py:103-120 | for every iteration order: fails exactly when a rect or path bucket fails; otherwise the output is a rearrangement of the `svg` declarations, the rect statements and the path statements, and each of these three appears in it as one contiguous run |
| `Emitter.ToRaphaelBlock` | parser.py:108-119 | each recognised tag's contribution is one contiguous run of the tag loop's output; a tag without a bucket contributes the empty run |
| `Emitter.ConcatMapBlock` | parser.py:108-119 | in a loop that extends the result item by item, each item's statements appear as one contiguous run; applied to the `rect` and `path` loops, each element's output from `create_rect`/`create_path` (construction statement first, as those contracts state) stays together |
| `Emitter.ToRaphaelFails` | parser.py:108-119 | the tag loop fails exactly when the rect or the path bucket fails |
| `Emitter.ToRaphaelContents` | parser.py:108-119 | the tag loop's output holds the three recognised contributions and nothing else |
| `Emitter.ConcatMapContents` | parser.py:108-119 | when only three items can emit, a duplicate-free run emits exactly their statements |
| `Emitter.ContributionsUnchanged` | parser.py:108-119 | a bucket for a tag other than `svg`, `rect`, `path` changes no tag's contribution |
| `Emitter.UnknownTagIgnored` | parser.py:108-119 | adding a bucket for any tag other than `svg`, `rect`, `path`, anywhere in the order, leaves the output unchanged |
| `Emitter.SvgFirstMapOnly` | parser.py:109-111 | the maps of later `svg` elements make no difference to the output |

## Left out

- XML reading and tree traversal (parser.py:24-26) are left out. They belong to the XML library. The model takes the visited elements in document order, as `Collector.Node` values.
- Attribute order within an element comes from the library and is unspecified. The model takes it as given. With duplicate local names, the last one wins, as in `dict`.
- The output templates are in `tokens.py`, which is not part of this model. `Emitter.Templates` holds them as arbitrary functions of the arguments the emitter formats into them. The attribute template receives `Option<string>` for the id, because `path.get('id')` may be `None`.
- Python 2 dictionary iteration order is not modelled (parser.py:108 and parser.py:110-112). `Emitter.ToRaphael` takes the tag order and the `svg` key order as parameters. Any order of the filtered `svg` map is the restriction of some order of `id,width,height`.
- Exceptions are modelled as `Result.Err`, carrying the offending name or segment. The Python exception types and messages are not modelled.
- The buckets left partly filled by a `parse` that raises part-way are not modelled. Neither is calling `parse` twice on one parser object, which appends to the same buckets. The model runs one `parse` on a fresh collection.
- `isdigit` is restricted to the ASCII digits `0`-`9`. Other Unicode digits are not modelled.
- The unused `element_understood` field (parser.py:17) is not modelled.
- `Emitter.ToRaphael` requires every bucket to be non-empty. The source's `item[0]` relies on this, and `Collector.Collect` guarantees it.

=== FILE: collector.dfy ===
/** The per-node loop of `SVGParser.parse`: every visited element becomes an
    attribute map filed under the local part of its tag name. Reading the XML
    file and walking its tree are outside the model; the walk is given as the
    sequence of visited nodes, in document order. */
module Collector {
  import opened Results
  import opened Text
  import opened Names

  /** One visited element: its raw tag and its raw attributes, in the order
      `item.attrib` yields them. */
  datatype Node = Node(tag: string, attrib: seq<(string, string)>)

  /** Attribute name (namespace stripped) to raw value. */
  type AttrMap = map<string, string>

  /** `self.element`: local tag name to the attribute maps filed under it, in
      visiting order. */
  type Collection = map<string, seq<AttrMap>>

  /** The local part of a raw tag or attribute name: the name itself when it
      has no `{uri}` prefix, and what follows the prefix otherwise. */
  function LocalName(raw: string): (r: Result<string>)
    ensures r.Ok? <==> |raw| > 0 && (raw[0] != '{' || Count(raw, '}') == 1)
    ensures r.Ok? && raw[0] != '{' ==> r.value == raw
    ensures r.Ok? && raw[0] == '{' ==>
              && |r.value| + 2 <= |raw| && '}' !in r.value
              && raw[|raw| - |r.value| - 1] == '}' && raw[|raw| - |r.value|..] == r.value
  {
    var n :- Normalize(raw);
    assert n.Namespaced? ==> raw == "{" + n.uri + "}" + n.local;
    assert n.Namespaced? ==> raw[|raw| - |n.local|..] == n.local;
    Ok(n.Local())
  }

  /** `attr_list`: the node's attributes with their names normalised, in the
      same order; the first name that fails to normalise aborts. */
  function LocalAttrs(attrib: seq<(string, string)>): (r: Result<seq<(string, string)>>)
    ensures r.Ok? <==> forall i :: 0 <= i < |attrib| ==> LocalName(attrib[i].0).Ok?
    ensures r.Ok? ==> |r.value| == |attrib|
    ensures r.Ok? ==> forall i :: 0 <= i < |attrib| ==>
              r.value[i] == (LocalName(attrib[i].0).value, attrib[i].1)
  {
    if |attrib| == 0 then Ok([])
    else
      var k :- LocalName(attrib[0].0);
      var rest :- LocalAttrs(attrib[1..]);
      Ok([(k, attrib[0].1)] + rest)
  }

  /** `dict(pairs)`: a later pair overrides an earlier one with the same key. */
  function ToMap(pairs: seq<(string, string)>): (m: AttrMap)
    ensures m.Keys == set i | 0 <= i < |pairs| :: pairs[i].0
    ensures forall i :: 0 <= i < |pairs| && (forall j :: i < j < |pairs| ==> pairs[j].0 != pairs[i].0)
              ==> m[pairs[i].0] == pairs[i].1
  {
    if |pairs| == 0 then map[]
    else
      var init := pairs[..|pairs| - 1];
      var last := pairs[|pairs| - 1];
      ToMapSnoc(init, last, ToMap(init));
      assert pairs == init + [last];
      ToMap(init)[last.0 := last.1]
  }

  /** One more pair: its key joins the keys and takes its value, and every
      key whose last occurrence came earlier keeps its value. */
  lemma ToMapSnoc(init: seq<(string, string)>, last: (string, string), prev: AttrMap)
    requires prev.Keys == set i | 0 <= i < |init| :: init[i].0
    requires forall i :: 0 <= i < |init| && (forall j :: i < j < |init| ==> init[j].0 != init[i].0)
               ==> prev[init[i].0] == init[i].1
    ensures var pairs, m := init + [last], prev[last.0 := last.1];
            && m.Keys == (set i | 0 <= i < |pairs| :: pairs[i].0)
            && forall i :: 0 <= i < |pairs| && (forall j :: i < j < |pairs| ==> pairs[j].0 != pairs[i].0)
                 ==> m[pairs[i].0] == pairs[i].1
  {
    var pairs, m := init + [last], prev[last.0 := last.1];
    forall k | k in m.Keys ensures k in set i | 0 <= i < |pairs| :: pairs[i].0 {
      if k != last.0 {
        var i :| 0 <= i < |init| && init[i].0 == k;
        assert pairs[i].0 == k;
      } else {
        assert pairs[|init|].0 == k;
      }
    }
    forall i | 0 <= i < |pairs| && (forall j :: i < j < |pairs| ==> pairs[j].0 != pairs[i].0)
      ensures m[pairs[i].0] == pairs[i].1
    {
      if i < |init| {
        assert pairs[|init|].0 != pairs[i].0;
        assert forall j :: i < j < |init| ==> init[j].0 == pairs[j].0;
      }
    }
  }

  /** One pass of the loop body: the node's local tag and its attribute map.
      The tag is normalised before the attribute names. */
  function Visit(node: Node): (r: Result<(string, AttrMap)>)
    ensures r.Ok? <==> LocalName(node.tag).Ok? && LocalAttrs(node.attrib).Ok?
    ensures r.Ok? ==> r.value.0 == LocalName(node.tag).value
    ensures r.Ok? && node.tag[0] != '{' ==> r.value.0 == node.tag
  {
    var tag :- LocalName(node.tag);
    var attrs :- LocalAttrs(node.attrib);
    Ok((tag, ToMap(attrs)))
  }

  /** A node is visited exactly when its tag and each one of its attribute
      names normalise; the first name that does not aborts the parse. */
  lemma VisitSucceeds(node: Node)
    ensures Visit(node).Ok? <==>
              (LocalName(node.tag).Ok? && forall i :: 0 <= i < |node.attrib| ==> LocalName(node.attrib[i].0).Ok?)
  {
  }

  /** Each map's keys are the local names of the node's attributes, and
      each key holds the raw value of the last attribute with that local
      name. */
  lemma VisitMap(node: Node)
    requires Visit(node).Ok?
    ensures Visit(node).value.1.Keys == set i | 0 <= i < |node.attrib| :: LocalName(node.attrib[i].0).value
    ensures forall i :: 0 <= i < |node.attrib|
              && (forall j :: i < j < |node.attrib| ==> LocalName(node.attrib[j].0).value != LocalName(node.attrib[i].0).value)
              ==> Visit(node).value.1[LocalName(node.attrib[i].0).value] == node.attrib[i].1
  {
    var attrs := LocalAttrs(node.attrib).value;
    assert forall i :: 0 <= i < |node.attrib| ==> attrs[i].0 == LocalName(node.attrib[i].0).value;
  }

  /** The bucket of `tag`, empty when `defaultdict` never created it. */
  function Bucket(c: Collection, tag: string): seq<AttrMap>
  {
    if tag in c then c[tag] else []
  }

  /** `self.element[tag].append(m)`. */
  function Append(c: Collection, tag: string, m: AttrMap): (c': Collection)
    ensures c'.Keys == c.Keys + {tag}
    ensures Bucket(c', tag) == Bucket(c, tag) + [m]
    ensures forall t :: t != tag ==> Bucket(c', t) == Bucket(c, t)
  {
    c[tag := Bucket(c, tag) + [m]]
  }

  /** Every bucket of the collection holds at least one map: `defaultdict`
      creates a bucket only on the access that appends to it. */
  predicate WellFormed(c: Collection)
  {
    forall t :: t in c ==> |c[t]| > 0
  }

  /** The loop of `parse` over the visited nodes, in order; the first node
      whose tag or attribute name fails to normalise aborts the parse. */
  function Collect(nodes: seq<Node>): (r: Result<Collection>)
    ensures r.Ok? <==> forall i :: 0 <= i < |nodes| ==> Visit(nodes[i]).Ok?
    ensures r.Ok? ==> WellFormed(r.value)
  {
    if |nodes| == 0 then Ok(map[])
    else
      var init := nodes[..|nodes| - 1];
      assert forall i :: 0 <= i < |init| ==> init[i] == nodes[i];
      assert nodes == init + [nodes[|nodes| - 1]];
      var c :- Collect(init);
      var v :- Visit(nodes[|nodes| - 1]);
      Ok(Append(c, v.0, v.1))
  }

  /** Reference definition of one bucket: the attribute maps of the visited
      nodes whose local tag is `tag`, in visiting order. */
  function Filed(visits: seq<(string, AttrMap)>, tag: string): seq<AttrMap>
  {
    if |visits| == 0 then []
    else
      Filed(visits[..|visits| - 1], tag)
      + (if visits[|visits| - 1].0 == tag then [visits[|visits| - 1].1] else [])
  }

  /** Every node's visit, in order (defined when every visit succeeds). */
  function Visits(nodes: seq<Node>): (vs: seq<(string, AttrMap)>)
    requires forall i :: 0 <= i < |nodes| ==> Visit(nodes[i]).Ok?
    ensures |vs| == |nodes|
    ensures forall i :: 0 <= i < |nodes| ==> vs[i] == Visit(nodes[i]).value
  {
    if |nodes| == 0 then []
    else
      var init := nodes[..|nodes| - 1];
      assert forall i :: 0 <= i < |init| ==> init[i] == nodes[i];
      var vs := Visits(init) + [Visit(nodes[|nodes| - 1]).value];
      assert forall i :: 0 <= i < |nodes| ==> vs[i] == Visit(nodes[i]).value by {
        forall i | 0 <= i < |nodes| ensures vs[i] == Visit(nodes[i]).value {
          if i < |init| {
            assert vs[i] == Visits(init)[i] && init[i] == nodes[i];
          }
        }
      }
      vs
  }

  /** Grouping: each bucket holds exactly the maps of the nodes with that
      local tag, in traversal order. */
  lemma {:induction false} CollectGroups(nodes: seq<Node>)
    requires Collect(nodes).Ok?
    ensures forall t :: Bucket(Collect(nodes).value, t) == Filed(Visits(nodes), t)
  {
    if |nodes| > 0 {
      var init := nodes[..|nodes| - 1];
      var prev := Collect(init).value;
      var last := Visit(nodes[|nodes| - 1]).value;
      CollectGroups(init);
      assert Collect(nodes).value == Append(prev, last.0, last.1);
      forall t ensures Bucket(Collect(nodes).value, t) == Filed(Visits(nodes), t) {
        assert Filed(Visits(nodes), t) == Filed(Visits(init), t) + (if last.0 == t then [last.1] else []);
      }
    }
  }

  /** The local tags of a sequence of visits. */
  function Tags(vs: seq<(string, AttrMap)>): set<string>
  {
    set i | 0 <= i < |vs| :: vs[i].0
  }

  lemma TagsSnoc(vs: seq<(string, AttrMap)>, v: (string, AttrMap))
    ensures Tags(vs + [v]) == Tags(vs) + {v.0}
  {
    var ws := vs + [v];
    forall x | x in Tags(ws) ensures x in Tags(vs) + {v.0} {
      var i :| 0 <= i < |ws| && ws[i].0 == x;
      if i < |vs| {
        assert vs[i].0 == x;
      }
    }
    forall x | x in Tags(vs) ensures x in Tags(ws) {
      var i :| 0 <= i < |vs| && vs[i].0 == x;
      assert ws[i].0 == x;
    }
    assert ws[|vs|].0 == v.0;
  }

  /** The collection has a bucket exactly for the local tags that occur. */
  lemma {:induction false} CollectKeys(nodes: seq<Node>)
    requires Collect(nodes).Ok?
    ensures Collect(nodes).value.Keys == Tags(Visits(nodes))
  {
    if |nodes| > 0 {
      var init := nodes[..|nodes| - 1];
      var last := Visit(nodes[|nodes| - 1]).value;
      CollectKeys(init);
      assert Visits(nodes) == Visits(init) + [last];
      TagsSnoc(Visits(init), last);
      assert Collect(nodes).value == Append(Collect(init).value, last.0, last.1);
    } else {
      assert Tags(Visits(nodes)) == {};
    }
  }

  /** The buckets laid end to end in the order `tags` lists them. */
  function Flatten(c: Collection, tags: seq<string>): seq<AttrMap>
  {
    if |tags| == 0 then [] else Bucket(c, tags[0]) + Flatten(c, tags[1..])
  }

  /** No element is listed twice. */
  predicate Distinct<T(==)>(xs: seq<T>)
  {
    forall i, j :: 0 <= i < j < |xs| ==> xs[i] != xs[j]
  }

  lemma {:induction false} FlattenAppend(c: Collection, tags: seq<string>, tag: string, m: AttrMap)
    requires Distinct(tags) && tag in tags
    ensures multiset(Flatten(Append(c, tag, m), tags)) == multiset(Flatten(c, tags)) + multiset{m}
  {
    var c' := Append(c, tag, m);
    if tags[0] == tag {
      assert tag !in tags[1..];
      FlattenUntouched(c, tags[1..], tag, m);
    } else {
      FlattenAppend(c, tags[1..], tag, m);
    }
  }

  lemma {:induction false} FlattenUntouched(c: Collection, tags: seq<string>, tag: string, m: AttrMap)
    requires tag !in tags
    ensures Flatten(Append(c, tag, m), tags) == Flatten(c, tags)
  {
    if |tags| > 0 {
      FlattenUntouched(c, tags[1..], tag, m);
    }
  }

  /** The attribute maps of a sequence of visits. */
  function Maps(vs: seq<(string, AttrMap)>): (ms: seq<AttrMap>)
    ensures |ms| == |vs|
  {
    if |vs| == 0 then [] else Maps(vs[..|vs| - 1]) + [vs[|vs| - 1].1]
  }

  /** Nothing is lost or duplicated: laying the buckets end to end, in any
      order that lists every tag once, gives back the maps of all visited
      nodes; in particular the bucket sizes sum to the number of nodes. */
  lemma {:induction false} CollectKeepsEveryNode(nodes: seq<Node>, tags: seq<string>)
    requires Collect(nodes).Ok?
    requires Distinct(tags) && Collect(nodes).value.Keys <= set t | t in tags
    ensures multiset(Flatten(Collect(nodes).value, tags)) == multiset(Maps(Visits(nodes)))
    ensures |Flatten(Collect(nodes).value, tags)| == |nodes|
  {
    if |nodes| == 0 {
      EmptyFlatten(tags);
    } else {
      var init := nodes[..|nodes| - 1];
      var prev := Collect(init).value;
      var v := Visit(nodes[|nodes| - 1]).value;
      assert Collect(nodes).value == Append(prev, v.0, v.1);
      CollectKeepsEveryNode(init, tags);
      FlattenAppend(prev, tags, v.0, v.1);
      assert Visits(nodes)[..|nodes| - 1] == Visits(init);
    }
    var f := Flatten(Collect(nodes).value, tags);
    assert |multiset(f)| == |f|;
    assert |multiset(Maps(Visits(nodes)))| == |nodes|;
  }

  lemma {:induction false} EmptyFlatten(tags: seq<string>)
    ensures Flatten(map[], tags) == []
  {
    if |tags| > 0 {
      EmptyFlatten(tags[1..]);
    }
  }
}

=== FILE: emitter.dfy ===
/** The emitter: `create_rect`, `create_path` and `to_raphael`, which turn the
    collected attribute maps into drawing statements. */
module Emitter {
  import opened Results
  import opened Text
  import opened Collector
  import opened Style

  /** The four output templates the emitter fills in. Their text belongs to
      another file, so the model treats each as an arbitrary function of the
      arguments the emitter formats into it. */
  datatype Templates = Templates(
    /** `init_var_with_value % (name, value)` */
    initVar: (string, string) -> string,
    /** `raphael_rect % rect`, formatted from the whole attribute map */
    rect: AttrMap -> string,
    /** `raphael_ellipse % path`, formatted from the whole attribute map */
    ellipse: AttrMap -> string,
    /** `raphael_element_attr % (id, joined)`; the id is `None` when
        `path.get('id')` finds nothing */
    elementAttr: (Option<string>, string) -> string)

  /** `SVG_TAG`: the `svg` attributes turned into variable declarations. */
  const SvgTag: set<string> := {"id", "width", "height"}
  /** `RECT_ATTRS`: what a rectangle needs to be drawn. */
  const RectAttrs: set<string> := {"id", "x", "y", "width", "height"}
  /** `ARC_ATTRS`: what an arc needs to be drawn. */
  const ArcAttrs: set<string> := {"id", "cx", "cy", "rx", "ry"}

  /** `m.get(k)`. */
  function Get(m: AttrMap, k: string): Option<string>
  {
    if k in m then Some(m[k]) else None
  }

  /** `create_rect(rect)`: nothing unless every one of `RectAttrs` is present;
      otherwise the construction statement, followed by one attribute
      statement when the map has a `style`. A malformed style raises. */
  function CreateRect(t: Templates, rect: AttrMap): (r: Result<seq<string>>)
    ensures !(RectAttrs <= rect.Keys) ==> r == Ok([])
    ensures RectAttrs <= rect.Keys ==> (r.Err? <==> "style" in rect && ParseStyle(rect["style"]).Err?)
    ensures r.Ok? && RectAttrs <= rect.Keys ==> |r.value| == if "style" in rect then 2 else 1
    ensures r.Ok? && RectAttrs <= rect.Keys ==>
              AssignedValue(r.value[0], rect["id"]) == Some(t.rect(rect))
    ensures r.Ok? && RectAttrs <= rect.Keys && "style" in rect ==>
              r.value[1] == t.elementAttr(Some(rect["id"]), Join(ParseStyle(rect["style"]).value, ","))
  {
    if RectAttrs <= rect.Keys then
      var id := rect["id"];
      var expression := JsStatement(id, t.rect(rect), "");
      JsStatementRoundTrip(id, t.rect(rect));
      if "style" in rect then
        var attr :- ParseStyle(rect["style"]);
        if |attr| > 0 then Ok([expression, t.elementAttr(Some(id), Join(attr, ","))])
        else Ok([expression])
      else Ok([expression])
    else Ok([])
  }

  /** `create_path(path)`: nothing unless `type` is exactly `"arc"`. For an
      arc, the construction statement when every one of `ArcAttrs` is present,
      and, independently of that, one attribute statement when the map has a
      `style`. As written, that statement joins the statements emitted so far
      for this path, not the parsed style entries. */
  function CreatePath(t: Templates, path: AttrMap): (r: Result<seq<string>>)
    ensures Get(path, "type") != Some("arc") ==> r == Ok([])
    ensures Get(path, "type") == Some("arc") ==>
              (r.Err? <==> "style" in path && ParseStyle(path["style"]).Err?)
    ensures r.Ok? && Get(path, "type") == Some("arc") ==>
              |r.value| == (if ArcAttrs <= path.Keys then 1 else 0) + (if "style" in path then 1 else 0)
    ensures r.Ok? && Get(path, "type") == Some("arc") && ArcAttrs <= path.Keys ==>
              AssignedValue(r.value[0], path["id"]) == Some(t.ellipse(path))
    ensures r.Ok? && Get(path, "type") == Some("arc") && "style" in path ==>
              r.value[|r.value| - 1] == t.elementAttr(Get(path, "id"), Join(r.value[..|r.value| - 1], ","))
  {
    if Get(path, "type") == Some("arc") then
      var ellipse :=
        if ArcAttrs <= path.Keys then
          JsStatementRoundTrip(path["id"], t.ellipse(path));
          [JsStatement(path["id"], t.ellipse(path), "")]
        else [];
      if "style" in path then
        var attr :- ParseStyle(path["style"]);
        if |attr| > 0 then
          var r := ellipse + [t.elementAttr(Get(path, "id"), Join(ellipse, ","))];
          assert r[..|r| - 1] == ellipse;
          Ok(r)
        else Ok(ellipse)
      else Ok(ellipse)
    else Ok([])
  }

  /** Unlike `create_rect`, `create_path` never formats the parsed style
      entries into its attribute statement: for an arc with a well-formed
      style, that statement joins the construction statement when there is
      one, and nothing otherwise. */
  lemma PathAttrJoinsConstruction(t: Templates, path: AttrMap)
    requires Get(path, "type") == Some("arc") && "style" in path
    requires ParseStyle(path["style"]).Ok?
    ensures CreatePath(t, path).Ok?
    ensures ArcAttrs <= path.Keys ==>
              var r := CreatePath(t, path).value;
              |r| == 2 && r[1] == t.elementAttr(Some(path["id"]), r[0])
    ensures !(ArcAttrs <= path.Keys) ==> CreatePath(t, path) == Ok([t.elementAttr(Get(path, "id"), "")])
  {
    if ArcAttrs <= path.Keys {
      var r := CreatePath(t, path).value;
      assert r[..1] == [r[0]];
    }
  }

  /** The statements of each item in turn, laid end to end; the first item
      that raises aborts. This is the shape of both loops of `to_raphael`:
      over the tags and, within a tag, over its bucket. */
  function ConcatMap<T>(f: T -> Result<seq<string>>, items: seq<T>): (r: Result<seq<string>>)
    ensures r.Ok? <==> forall i :: 0 <= i < |items| ==> f(items[i]).Ok?
  {
    if |items| == 0 then Ok([])
    else
      var head :- f(items[0]);
      var tail :- ConcatMap(f, items[1..]);
      Ok(head + tail)
  }

  /** Emitting is a concatenation over the items: two runs of items one after
      the other give the two outputs one after the other, and the error, if
      any, is that of the earlier run. */
  lemma {:induction false} ConcatMapAppend<T>(f: T -> Result<seq<string>>, b1: seq<T>, b2: seq<T>)
    ensures ConcatMap(f, b1).Err? ==> ConcatMap(f, b1 + b2) == ConcatMap(f, b1)
    ensures ConcatMap(f, b1).Ok? && ConcatMap(f, b2).Err? ==> ConcatMap(f, b1 + b2) == ConcatMap(f, b2)
    ensures ConcatMap(f, b1).Ok? && ConcatMap(f, b2).Ok? ==>
              ConcatMap(f, b1 + b2) == Ok(ConcatMap(f, b1).value + ConcatMap(f, b2).value)
  {
    if |b1| > 0 {
      assert (b1 + b2)[0] == b1[0] && (b1 + b2)[1..] == b1[1..] + b2;
      ConcatMapAppend(f, b1[1..], b2);
      if ConcatMap(f, b1).Ok? && ConcatMap(f, b2).Ok? {
        var head := f(b1[0]).value;
        var v1, v2 := ConcatMap(f, b1[1..]).value, ConcatMap(f, b2).value;
        assert ConcatMap(f, b1) == Ok(head + v1);
        assert ConcatMap(f, b1[1..] + b2) == Ok(v1 + v2);
        assert ConcatMap(f, b1 + b2) == Ok(head + (v1 + v2));
        assert head + (v1 + v2) == (head + v1) + v2;
      }
    } else {
      assert b1 + b2 == b2;
      if ConcatMap(f, b2).Ok? {
        assert ConcatMap(f, b1).value + ConcatMap(f, b2).value == ConcatMap(f, b2).value;
      }
    }
  }

  /** A single item contributes exactly its own statements. */
  lemma ConcatMapSingle<T>(f: T -> Result<seq<string>>, x: T)
    ensures ConcatMap(f, [x]) == f(x)
  {
    assert [x][0] == x && [x][1..] == [];
    if f(x).Ok? {
      assert f(x).value + [] == f(x).value;
    }
  }

  /** The statements of `x` when it is listed and succeeds, as a multiset. */
  function Listed<T(==)>(f: T -> Result<seq<string>>, items: seq<T>, x: T): multiset<string>
  {
    if x in items && f(x).Ok? then multiset(f(x).value) else multiset{}
  }

  /** When only the items `a`, `b` and `d` can produce statements, a
      duplicate-free run of items produces the statements of those of the
      three it lists, in some order, and nothing else. */
  lemma {:induction false} ConcatMapContents<T>(f: T -> Result<seq<string>>, items: seq<T>, a: T, b: T, d: T)
    requires a != b && b != d && a != d
    requires Distinct(items)
    requires forall i :: 0 <= i < |items| && items[i] != a && items[i] != b && items[i] != d ==> f(items[i]) == Ok([])
    requires ConcatMap(f, items).Ok?
    ensures multiset(ConcatMap(f, items).value) == Listed(f, items, a) + Listed(f, items, b) + Listed(f, items, d)
  {
    if |items| > 0 {
      var x := items[0];
      var tail := items[1..];
      assert Distinct(tail) && x !in tail;
      assert forall y :: y in items <==> y == x || y in tail;
      ConcatMapContents(f, tail, a, b, d);
      assert ConcatMap(f, items).value == f(x).value + ConcatMap(f, tail).value;
      assert Listed(f, items, a) == (if x == a then multiset(f(x).value) else Listed(f, tail, a));
      assert Listed(f, items, b) == (if x == b then multiset(f(x).value) else Listed(f, tail, b));
      assert Listed(f, items, d) == (if x == d then multiset(f(x).value) else Listed(f, tail, d));
    }
  }

  /** `b` occurs in `r` as one contiguous run starting at position `p`. */
  predicate BlockAt(r: seq<string>, b: seq<string>, p: int)
  {
    0 <= p <= |r| - |b| && r[p..p + |b|] == b
  }

  /** `b` occurs in `r` as one contiguous run. */
  ghost predicate IsBlock(r: seq<string>, b: seq<string>)
  {
    exists p :: BlockAt(r, b, p)
  }

  /** The empty run occurs in every output. */
  lemma EmptyBlock(r: seq<string>)
    ensures IsBlock(r, [])
  {
    assert BlockAt(r, [], 0);
  }

  /** Each item's statements appear in the output as one contiguous run. */
  lemma {:induction false} ConcatMapBlock<T>(f: T -> Result<seq<string>>, items: seq<T>, i: nat)
    requires i < |items| && ConcatMap(f, items).Ok?
    ensures f(items[i]).Ok? && IsBlock(ConcatMap(f, items).value, f(items[i]).value)
  {
    var head := f(items[0]).value;
    var tail := ConcatMap(f, items[1..]).value;
    var r := ConcatMap(f, items).value;
    assert r == head + tail;
    if i == 0 {
      assert BlockAt(r, head, 0);
    } else {
      ConcatMapBlock(f, items[1..], i - 1);
      var b := f(items[i]).value;
      assert items[1..][i - 1] == items[i];
      var p :| BlockAt(tail, b, p);
      assert r[|head| + p..|head| + p + |b|] == tail[p..p + |b|];
      assert BlockAt(r, b, |head| + p);
    }
  }

  /** The statements of a `rect` bucket, map by map. */
  function Rects(t: Templates, bucket: seq<AttrMap>): (r: Result<seq<string>>)
    ensures r.Ok? <==> forall i :: 0 <= i < |bucket| ==> CreateRect(t, bucket[i]).Ok?
  {
    ConcatMap(m => CreateRect(t, m), bucket)
  }

  /** The statements of a `path` bucket, map by map. */
  function Paths(t: Templates, bucket: seq<AttrMap>): (r: Result<seq<string>>)
    ensures r.Ok? <==> forall i :: 0 <= i < |bucket| ==> CreatePath(t, bucket[i]).Ok?
  {
    ConcatMap(m => CreatePath(t, m), bucket)
  }

  /** `order` lists each element of `s` exactly once. */
  predicate IsEnumeration<T(==)>(order: seq<T>, s: set<T>)
  {
    Distinct(order) && (set k | k in order) == s
  }

  /** The keys of the filtered `svg` map, in the order `order` gives them. */
  function SvgKeys(first: AttrMap, order: seq<string>): (ks: seq<string>)
    ensures forall k :: k in ks <==> k in order && k in first
    ensures Distinct(order) ==> Distinct(ks)
  {
    if |order| == 0 then []
    else
      var rest := SvgKeys(first, order[1..]);
      assert forall k :: k in order <==> k == order[0] || k in order[1..];
      if order[0] in first then [order[0]] + rest else rest
  }

  /** The `svg` declarations: `init_var_with_value % (k, v)` for each kept
      key `k` of the first `svg` map, in the order `order` gives the keys. */
  function SvgDeclarations(t: Templates, first: AttrMap, order: seq<string>): (r: seq<string>)
    ensures var ks := SvgKeys(first, order);
            && |r| == |ks|
            && forall i :: 0 <= i < |r| ==> ks[i] in order && ks[i] in first && r[i] == t.initVar(ks[i], first[ks[i]])
    ensures forall k :: k in order && k in first ==> t.initVar(k, first[k]) in r
  {
    var ks := SvgKeys(first, order);
    var r := seq(|ks|, i requires 0 <= i < |ks| => t.initVar(ks[i], first[ks[i]]));
    assert forall k :: k in order && k in first ==> t.initVar(k, first[k]) in r by {
      forall k | k in order && k in first ensures t.initVar(k, first[k]) in r {
        var i :| 0 <= i < |ks| && ks[i] == k;
        assert r[i] == t.initVar(k, first[k]);
      }
    }
    r
  }

  /** The `svg` element contributes one declaration per `SvgTag` attribute it
      carries: at most three, and exactly three when it has all of them. */
  lemma SvgDeclarationCount(t: Templates, first: AttrMap, order: seq<string>)
    requires Distinct(order)
    ensures |SvgDeclarations(t, first, order)| == |(set k | k in order) * first.Keys|
  {
    SvgKeysCount(first, order);
  }

  /** The kept keys are the keys of `order` present in the map. */
  lemma {:induction false} SvgKeysCount(first: AttrMap, order: seq<string>)
    requires Distinct(order)
    ensures |SvgKeys(first, order)| == |(set k | k in order) * first.Keys|
  {
    if |order| > 0 {
      var k := order[0];
      var tail := order[1..];
      assert Distinct(tail);
      SvgKeysCount(first, tail);
      var s := (set x | x in order) * first.Keys;
      var s' := (set x | x in tail) * first.Keys;
      assert k !in s';
      if k in first {
        assert s == s' + {k};
      } else {
        assert s == s';
      }
    }
  }

  /** The svg declarations, or none without an `svg` element. */
  function SvgPart(t: Templates, c: Collection, svgOrder: seq<string>): seq<string>
  {
    var svg := Bucket(c, "svg");
    if |svg| > 0 then SvgDeclarations(t, svg[0], svgOrder) else []
  }

  /** What one tag of the collection contributes: the declarations of the
      first `svg` map, the statements of every `rect` or `path` map, and
      nothing for any other tag. */
  function Contribution(t: Templates, c: Collection, svgOrder: seq<string>, tag: string): (r: Result<seq<string>>)
    ensures tag != "svg" && tag != "rect" && tag != "path" ==> r == Ok([])
    ensures r.Err? ==> tag == "rect" || tag == "path"
  {
    if tag == "svg" then Ok(SvgPart(t, c, svgOrder))
    else if tag == "rect" then Rects(t, Bucket(c, "rect"))
    else if tag == "path" then Paths(t, Bucket(c, "path"))
    else Ok([])
  }

  /** `to_raphael()`: the statements of every tag, in the collection's
      iteration order `tagOrder`; the `svg` declarations follow `svgOrder`,
      the iteration order of the filtered `svg` map. Whatever the two orders,
      the output is a rearrangement of the `svg`, `rect` and `path`
      contributions, and it fails exactly when a rectangle or path has a
      malformed style. */
  function ToRaphael(t: Templates, c: Collection, tagOrder: seq<string>, svgOrder: seq<string>): (r: Result<seq<string>>)
    requires WellFormed(c)
    requires IsEnumeration(tagOrder, c.Keys)
    requires IsEnumeration(svgOrder, SvgTag)
    ensures r.Ok? <==> Rects(t, Bucket(c, "rect")).Ok? && Paths(t, Bucket(c, "path")).Ok?
    ensures r.Ok? ==> multiset(r.value)
                      == multiset(SvgPart(t, c, svgOrder))
                       + multiset(Rects(t, Bucket(c, "rect")).value)
                       + multiset(Paths(t, Bucket(c, "path")).value)
    ensures r.Ok? ==> && IsBlock(r.value, SvgPart(t, c, svgOrder))
                      && IsBlock(r.value, Rects(t, Bucket(c, "rect")).value)
                      && IsBlock(r.value, Paths(t, Bucket(c, "path")).value)
  {
    var r := ConcatMap(tag => Contribution(t, c, svgOrder, tag), tagOrder);
    ToRaphaelFails(t, c, tagOrder, svgOrder);
    if r.Ok? then
      ToRaphaelContents(t, c, tagOrder, svgOrder);
      ToRaphaelBlock(t, c, tagOrder, svgOrder, "svg");
      ToRaphaelBlock(t, c, tagOrder, svgOrder, "rect");
      ToRaphaelBlock(t, c, tagOrder, svgOrder, "path");
      r
    else r
  }

  /** A tag's contribution appears in the tag loop's output as one
      contiguous run; a tag without a bucket contributes nothing, which is
      trivially such a run. */
  lemma ToRaphaelBlock(t: Templates, c: Collection, tagOrder: seq<string>, svgOrder: seq<string>, tag: string)
    requires IsEnumeration(tagOrder, c.Keys)
    requires tag == "svg" || tag == "rect" || tag == "path"
    requires ConcatMap(x => Contribution(t, c, svgOrder, x), tagOrder).Ok?
    ensures Contribution(t, c, svgOrder, tag).Ok?
    ensures IsBlock(ConcatMap(x => Contribution(t, c, svgOrder, x), tagOrder).value,
                    Contribution(t, c, svgOrder, tag).value)
  {
    var f := x => Contribution(t, c, svgOrder, x);
    var r := ConcatMap(f, tagOrder).value;
    if tag in c {
      assert tag in set k | k in tagOrder;
      var i :| 0 <= i < |tagOrder| && tagOrder[i] == tag;
      ConcatMapBlock(f, tagOrder, i);
    } else {
      assert Bucket(c, tag) == [];
      assert Contribution(t, c, svgOrder, tag) == Ok([]);
      EmptyBlock(r);
    }
  }

  /** The tag loop raises exactly when the `rect` or the `path` bucket does:
      those are the only tags whose contribution can fail. */
  lemma ToRaphaelFails(t: Templates, c: Collection, tagOrder: seq<string>, svgOrder: seq<string>)
    requires IsEnumeration(tagOrder, c.Keys)
    ensures ConcatMap(tag => Contribution(t, c, svgOrder, tag), tagOrder).Ok?
            <==> Rects(t, Bucket(c, "rect")).Ok? && Paths(t, Bucket(c, "path")).Ok?
  {
    var f := tag => Contribution(t, c, svgOrder, tag);
    assert forall i :: 0 <= i < |tagOrder| ==> tagOrder[i] in c;
    if "rect" in c {
      assert "rect" in set k | k in tagOrder;
      var i :| 0 <= i < |tagOrder| && tagOrder[i] == "rect";
      assert f(tagOrder[i]) == Rects(t, Bucket(c, "rect"));
    } else {
      assert Bucket(c, "rect") == [];
    }
    if "path" in c {
      assert "path" in set k | k in tagOrder;
      var i :| 0 <= i < |tagOrder| && tagOrder[i] == "path";
      assert f(tagOrder[i]) == Paths(t, Bucket(c, "path"));
    } else {
      assert Bucket(c, "path") == [];
    }
  }

  /** The tag loop's output holds the `svg`, `rect` and `path`
      contributions, each once, and nothing else. */
  lemma ToRaphaelContents(t: Templates, c: Collection, tagOrder: seq<string>, svgOrder: seq<string>)
    requires IsEnumeration(tagOrder, c.Keys)
    requires ConcatMap(tag => Contribution(t, c, svgOrder, tag), tagOrder).Ok?
    ensures multiset(ConcatMap(tag => Contribution(t, c, svgOrder, tag), tagOrder).value)
            == multiset(SvgPart(t, c, svgOrder))
             + multiset(Rects(t, Bucket(c, "rect")).value)
             + multiset(Paths(t, Bucket(c, "path")).value)
  {
    var f := tag => Contribution(t, c, svgOrder, tag);
    ConcatMapContents(f, tagOrder, "svg", "rect", "path");
    assert forall k :: k in tagOrder <==> k in c;
  }

  /** Two emitters that agree on every item emit the same. */
  lemma {:induction false} ConcatMapCongruent<T>(f: T -> Result<seq<string>>, g: T -> Result<seq<string>>, items: seq<T>)
    requires forall i :: 0 <= i < |items| ==> f(items[i]) == g(items[i])
    ensures ConcatMap(f, items) == ConcatMap(g, items)
  {
    if |items| > 0 {
      ConcatMapCongruent(f, g, items[1..]);
    }
  }

  /** An item that emits nothing can be inserted anywhere without changing
      the output. */
  lemma ConcatMapSkip<T>(f: T -> Result<seq<string>>, items: seq<T>, u: T, k: nat)
    requires f(u) == Ok([]) && k <= |items|
    ensures ConcatMap(f, items[..k] + [u] + items[k..]) == ConcatMap(f, items)
  {
    ConcatMapAppend(f, items[..k], [u]);
    ConcatMapAppend(f, items[..k] + [u], items[k..]);
    ConcatMapAppend(f, items[..k], items[k..]);
    ConcatMapSingle(f, u);
    assert items[..k] + items[k..] == items;
    if ConcatMap(f, items[..k]).Ok? {
      assert ConcatMap(f, items[..k]).value + [] == ConcatMap(f, items[..k]).value;
    }
  }

  /** Inserting a new tag into an enumeration of a collection's keys gives an
      enumeration of the keys with that tag added. */
  lemma InsertEnumeration(tagOrder: seq<string>, keys: set<string>, u: string, k: nat)
    requires IsEnumeration(tagOrder, keys) && u !in keys && k <= |tagOrder|
    ensures IsEnumeration(tagOrder[..k] + [u] + tagOrder[k..], keys + {u})
  {
    var order' := tagOrder[..k] + [u] + tagOrder[k..];
    assert forall x :: x in tagOrder <==> x in keys;
    assert tagOrder[..k] + tagOrder[k..] == tagOrder;
    assert forall x :: x in order' <==> x in tagOrder || x == u;
    assert (set x | x in order') == keys + {u};
    forall i, j | 0 <= i < j < |order'| ensures order'[i] != order'[j] {
      if i < k && j > k {
        assert order'[j] == tagOrder[j - 1];
      } else if i > k {
        assert order'[i] == tagOrder[i - 1] && order'[j] == tagOrder[j - 1];
      }
    }
  }

  /** A bucket for a tag other than `svg`, `rect` and `path` changes no
      tag's contribution. */
  lemma ContributionsUnchanged(t: Templates, c: Collection, svgOrder: seq<string>, u: string, b: seq<AttrMap>)
    requires u != "svg" && u != "rect" && u != "path"
    ensures forall x :: Contribution(t, c[u := b], svgOrder, x) == Contribution(t, c, svgOrder, x)
  {
    var c' := c[u := b];
    assert Bucket(c', "svg") == Bucket(c, "svg");
    assert Bucket(c', "rect") == Bucket(c, "rect");
    assert Bucket(c', "path") == Bucket(c, "path");
  }

  /** Tags other than `svg`, `rect` and `path` contribute nothing: adding a
      bucket for such a tag, wherever it falls in the iteration order, leaves
      the output exactly as it was. */
  lemma UnknownTagIgnored(t: Templates, c: Collection, tagOrder: seq<string>, svgOrder: seq<string>,
                          u: string, b: seq<AttrMap>, k: nat)
    requires WellFormed(c) && IsEnumeration(tagOrder, c.Keys) && IsEnumeration(svgOrder, SvgTag)
    requires u !in c && u != "svg" && u != "rect" && u != "path" && |b| > 0
    requires k <= |tagOrder|
    ensures WellFormed(c[u := b]) && IsEnumeration(tagOrder[..k] + [u] + tagOrder[k..], c[u := b].Keys)
    ensures ToRaphael(t, c[u := b], tagOrder[..k] + [u] + tagOrder[k..], svgOrder) == ToRaphael(t, c, tagOrder, svgOrder)
  {
    var c' := c[u := b];
    var order' := tagOrder[..k] + [u] + tagOrder[k..];
    InsertEnumeration(tagOrder, c.Keys, u, k);
    assert c'.Keys == c.Keys + {u};
    var f := tag => Contribution(t, c, svgOrder, tag);
    var f' := tag => Contribution(t, c', svgOrder, tag);
    ContributionsUnchanged(t, c, svgOrder, u, b);
    ConcatMapCongruent(f', f, order');
    ConcatMapSkip(f, tagOrder, u, k);
  }

  /** Only the first `svg` map is read: the maps of later `svg` elements
      make no difference to the output. */
  lemma SvgFirstMapOnly(t: Templates, c: Collection, tagOrder: seq<string>, svgOrder: seq<string>,
                        first: AttrMap, later1: seq<AttrMap>, later2: seq<AttrMap>)
    requires WellFormed(c) && "svg" in c && IsEnumeration(tagOrder, c.Keys) && IsEnumeration(svgOrder, SvgTag)
    ensures WellFormed(c["svg" := [first] + later1]) && WellFormed(c["svg" := [first] + later2])
    ensures ToRaphael(t, c["svg" := [first] + later1], tagOrder, svgOrder)
            == ToRaphael(t, c["svg" := [first] + later2], tagOrder, svgOrder)
  {
    var c1 := c["svg" := [first] + later1];
    var c2 := c["svg" := [first] + later2];
    assert c1.Keys == c.Keys == c2.Keys;
    assert Bucket(c1, "rect") == Bucket(c2, "rect") && Bucket(c1, "path") == Bucket(c2, "path");
    assert SvgPart(t, c1, svgOrder) == SvgPart(t, c2, svgOrder);
    var f1 := tag => Contribution(t, c1, svgOrder, tag);
    var f2 := tag => Contribution(t, c2, svgOrder, tag);
    assert forall x :: f1(x) == f2(x);
    ConcatMapCongruent(f1, f2, tagOrder);
  }

  /** An `svg` element carrying `id`, `width` and `height` yields exactly
      three declarations, whatever order they come in. */
  lemma FullSvgThreeDeclarations(t: Templates, first: AttrMap, svgOrder: seq<string>)
    requires IsEnumeration(svgOrder, SvgTag) && SvgTag <= first.Keys
    ensures |SvgDeclarations(t, first, svgOrder)| == 3
  {
    SvgDeclarationCount(t, first, svgOrder);
    assert (set k | k in svgOrder) * first.Keys == SvgTag * first.Keys == SvgTag;
    SvgTagSize();
  }

  /** `SVG_TAG` names three distinct attributes. */
  lemma SvgTagSize()
    ensures |SvgTag| == 3
  {
    assert SvgTag == {"id", "width"} + {"height"};
    assert |{"id", "width"}| == 2;
  }
}

=== FILE: names.dfy ===
/** Namespace stripping of tag and attribute names (`SVGParser._normalize`
    and the `isinstance(name, tuple)` branches of `parse`). */
module Names {
  import opened Results
  import opened Text

  /** What `_normalize` returns: the name itself, or a `(uri, tag)` pair for
      an expanded name `{uri}tag`. */
  datatype Name = Plain(text: string) | Namespaced(uri: string, local: string) {

    /** The part used for grouping and lookup; the namespace is dropped. */
    function Local(): string
    {
      match this
      case Plain(t) => t
      case Namespaced(_, l) => l
    }
  }

  /** `_normalize(name)`: a name that starts with `{` must contain exactly one
      `}`, which separates the namespace URI from the local name; any other
      non-empty name is returned as it is. */
  function Normalize(name: string): (r: Result<Name>)
    ensures r.Ok? <==> |name| > 0 && (name[0] != '{' || Count(name, '}') == 1)
    ensures |name| == 0 ==> r == Err(EmptyName)
    ensures |name| > 0 && name[0] != '{' ==> r == Ok(Plain(name))
    ensures r.Ok? && name[0] == '{' ==>
              && r.value.Namespaced?
              && name == "{" + r.value.uri + "}" + r.value.local
              && '}' !in r.value.uri && '}' !in r.value.local
  {
    if |name| == 0 then Err(EmptyName)
    else if name[0] == '{' then
      var parts := Split(name[1..], '}');
      assert name == "{" + name[1..];
      if |parts| == 2 then
        assert Join(parts, "}") == parts[0] + "}" + parts[1];
        Ok(Namespaced(parts[0], parts[1]))
      else Err(BadNamespace(name, |parts|))
    else Ok(Plain(name))
  }

  /** The converse of `Normalize`'s contract: an expanded name built from a
      brace-free URI and local name is taken apart into exactly those. */
  lemma NormalizeExpanded(uri: string, local: string)
    requires '}' !in uri && '}' !in local
    ensures Normalize("{" + uri + "}" + local) == Ok(Namespaced(uri, local))
  {
    var name := "{" + uri + "}" + local;
    assert name[1..] == Join([uri, local], "}");
    SplitJoin([uri, local], '}');
  }

  /** `{uri}tag` and a bare `tag` have the same local part, so the collector
      files them under the same tag. */
  lemma SameLocalName(uri: string, tag: string)
    requires '}' !in uri && '}' !in tag
    requires |tag| > 0 && tag[0] != '{'
    ensures Normalize("{" + uri + "}" + tag).Ok? && Normalize(tag).Ok?
    ensures Normalize("{" + uri + "}" + tag).value.Local() == Normalize(tag).value.Local() == tag
  {
    NormalizeExpanded(uri, tag);
  }
}

=== FILE: results.dfy ===
/** Failure-carrying values used in place of the Python exceptions that the
    translator raises and never catches. */
module Results {

  /** A value that may be missing, as `dict.get` returns `None`. */
  datatype Option<+T> = None | Some(value: T)

  /** The exceptions the translator can raise, one constructor per raise site. */
  datatype Error =
    /** `name[0]` on an empty name raises IndexError. */
    | EmptyName
    /** `uri, tag = name[1:].split("}")` did not yield exactly two pieces. */
    | BadNamespace(name: string, pieces: nat)
    /** `prop, value = element.split(":")` did not yield exactly two pieces. */
    | BadStyleSegment(segment: string, pieces: nat)

  /** Either a value or the error that aborted the computation. */
  datatype Result<+T> = Ok(value: T) | Err(error: Error) {

    predicate IsFailure() {
      Err?
    }

    function PropagateFailure<U>(): Result<U>
      requires Err?
    {
      Err(error)
    }

    function Extract(): T
      requires Ok?
    {
      value
    }
  }
}

=== FILE: style.dfy ===
/** The statement and style helpers of the emitter: `_quote_element`,
    `_create_js_element` and `create_element_attr`. */
module Style {
  import opened Results
  import opened Text

  /** `"%s" % self._quote_element(token)`: a token of ASCII digits is read as
      an integer and printed back, which leaves it without its leading zeros;
      any other token, the empty one included, is wrapped in double quotes. */
  function QuoteElement(token: string): (r: string)
    ensures IsDigits(token) ==> IsCanonical(r) && |r| <= |token| && r == token[|token| - |r|..]
    ensures IsDigits(token) ==> forall i :: 0 <= i < |token| - |r| ==> token[i] == '0'
    ensures !IsDigits(token) ==> r == "\"" + token + "\""
  {
    if IsDigits(token) then StripLeadingZeros(token) else "\"" + token + "\""
  }

  /** The digit branch is exactly `int(token)` printed with `%s`, and that
      text is the token without its superfluous leading zeros: it equals the
      token precisely when the token had none. */
  lemma QuoteDropsLeadingZeros(token: string)
    requires IsDigits(token)
    ensures QuoteElement(token) == Decimal(ValueOf(token))
    ensures QuoteElement(token) == token <==> IsCanonical(token)
  {
    StripKeepsValue(token);
    DecimalOfCanonical(StripLeadingZeros(token));
  }

  /** `n` zero digits. */
  function Zeros(n: nat): (z: string)
    ensures |z| == n && forall i :: 0 <= i < n ==> z[i] == '0'
  {
    seq(n, _ => '0')
  }

  /** A canonical numeral padded with any number of zeros is quoted as the
      numeral itself. */
  lemma {:induction false} QuoteZeroPadded(n: nat, s: string)
    requires IsCanonical(s)
    ensures IsDigits(Zeros(n) + s)
    ensures QuoteElement(Zeros(n) + s) == s
  {
    if n > 0 {
      QuoteZeroPadded(n - 1, s);
      assert (Zeros(n) + s)[1..] == Zeros(n - 1) + s;
    }
  }

  /** `"007"` loses its zeros and `"0"` is kept. */
  lemma QuoteNumberExamples()
    ensures QuoteElement("007") == "7"
    ensures QuoteElement("0") == "0"
  {
    QuoteZeroPadded(2, "7");
    assert Zeros(2) + "7" == "007";
    QuoteZeroPadded(0, "0");
    assert Zeros(0) + "0" == "0";
  }

  /** The empty token and a word are quoted. */
  lemma QuoteWordExamples()
    ensures QuoteElement("") == "\"\""
    ensures QuoteElement("red") == "\"red\""
  {
  }

  /** `_create_js_element(var, val, init)`: `var = val;`, preceded by
      `init` and a blank when `init` is not empty. */
  function JsStatement(variable: string, value: string, init: string): (r: string)
    ensures |r| > 0 && r[|r| - 1] == ';'
    ensures |init| > 0 ==> |r| > |init| && r[..|init| + 1] == init + " "
  {
    var expression := if |init| > 0 then init + " " else "";
    expression + variable + " = " + value + ";"
  }

  /** The value assigned to `variable` by a statement of the form
      `variable = value;`, if the statement has that form. */
  function AssignedValue(statement: string, variable: string): Option<string>
  {
    var head := variable + " = ";
    if |statement| >= |head| + 1 && statement[..|head|] == head && statement[|statement| - 1] == ';'
    then Some(statement[|head|..|statement| - 1])
    else None
  }

  /** `_create_js_element` with an empty `init` is undone by `AssignedValue`:
      the statement names the variable and carries the value verbatim. */
  lemma JsStatementRoundTrip(variable: string, value: string)
    ensures AssignedValue(JsStatement(variable, value, ""), variable) == Some(value)
  {
    var s := JsStatement(variable, value, "");
    var head := variable + " = ";
    assert s == head + value + ";";
    assert s[..|head|] == head;
    assert s[|head|..|s| - 1] == value;
  }

  /** One `prop:value` segment of a style string, both halves quoted; a
      segment without exactly one `:` raises. */
  function StyleEntry(segment: string): (r: Result<string>)
    ensures r.Ok? <==> Count(segment, ':') == 1
    ensures r.Err? ==> r.error == BadStyleSegment(segment, Count(segment, ':') + 1)
  {
    var parts := Split(segment, ':');
    if |parts| != 2 then Err(BadStyleSegment(segment, |parts|))
    else Ok(QuoteElement(parts[0]) + ":" + QuoteElement(parts[1]))
  }

  /** The entries of the segments, in order; the first bad segment aborts. */
  function StyleEntries(segments: seq<string>): (r: Result<seq<string>>)
    ensures r.Ok? <==> forall i :: 0 <= i < |segments| ==> Count(segments[i], ':') == 1
    ensures r.Ok? ==> |r.value| == |segments|
    ensures r.Ok? ==> forall i :: 0 <= i < |segments| ==> r.value[i] == StyleEntry(segments[i]).value
  {
    if |segments| == 0 then Ok([])
    else
      var head :- StyleEntry(segments[0]);
      var tail :- StyleEntries(segments[1..]);
      Ok([head] + tail)
  }

  /** `style.split(';')`. Stated through this non-recursive name so that
      the quantifier in `ParseStyle`'s contract and the one in
      `StyleEntries`'s contract refer to the same term. */
  function Segments(style: string): seq<string>
  {
    Split(style, ';')
  }

  /** `create_element_attr(style)`: one quoted `prop:value` entry per
      `;`-separated segment. Since splitting always yields at least one
      segment, a successful parse is never empty, so the emitter's `if attr:`
      tests always pass. */
  function ParseStyle(style: string): (r: Result<seq<string>>)
    ensures r.Ok? <==> forall i :: 0 <= i < |Segments(style)| ==> Count(Segments(style)[i], ':') == 1
    ensures r.Ok? ==> |r.value| == Count(style, ';') + 1
  {
    StyleEntries(Segments(style))
  }

  /** A style string ending in `;` always raises: its last segment is empty
      and has no `:`. */
  lemma TrailingSemicolonFails(style: string)
    ensures ParseStyle(style + ";").Err?
  {
    SplitTrailingSeparator(style, ';');
    var segs := Split(style + ";", ';');
    assert Count(segs[|segs| - 1], ':') == 0;
  }

  /** The declarations `props[i]:values[i]`, in order. */
  function Declarations(props: seq<string>, values: seq<string>): (ds: seq<string>)
    requires |props| == |values|
    ensures |ds| == |props|
    ensures forall i :: 0 <= i < |props| ==> ds[i] == props[i] + ":" + values[i]
  {
    seq(|props|, i requires 0 <= i < |props| => props[i] + ":" + values[i])
  }

  /** Parsing a style string written from separator-free properties and
      values gives one entry per declaration, each half quoted by
      `QuoteElement`. */
  lemma {:induction false} ParseWrittenStyle(props: seq<string>, values: seq<string>)
    requires |props| == |values| >= 1
    requires forall i :: 0 <= i < |props| ==> ';' !in props[i] && ':' !in props[i]
    requires forall i :: 0 <= i < |values| ==> ';' !in values[i] && ':' !in values[i]
    ensures ParseStyle(Join(Declarations(props, values), ";")).Ok?
    ensures |ParseStyle(Join(Declarations(props, values), ";")).value| == |props|
    ensures forall i :: 0 <= i < |props| ==>
              ParseStyle(Join(Declarations(props, values), ";")).value[i]
              == QuoteElement(props[i]) + ":" + QuoteElement(values[i])
  {
    var ds := Declarations(props, values);
    SplitJoin(ds, ';');
    forall i | 0 <= i < |ds| ensures StyleEntry(ds[i]) == Ok(QuoteElement(props[i]) + ":" + QuoteElement(values[i])) {
      assert ds[i] == Join([props[i], values[i]], ":");
      SplitJoin([props[i], values[i]], ':');
    }
  }
}

=== FILE: text.dfy ===
/** The few operations of Python's `str` that the translator relies on:
    `split` on one character, `join`, `isdigit`, `int(...)` on a digit string
    and `"%s" % n` on a non-negative integer. */
module Text {

  /** Number of occurrences of `c` in `s`. */
  function Count(s: string, c: char): nat
  {
    if |s| == 0 then 0 else (if s[0] == c then 1 else 0) + Count(s[1..], c)
  }

  /** `sep.join(parts)`. */
  function Join(parts: seq<string>, sep: string): string
  {
    if |parts| == 0 then ""
    else if |parts| == 1 then parts[0]
    else parts[0] + sep + Join(parts[1..], sep)
  }

  /** `s.split(c)` for a one-character separator: the pieces between the
      occurrences of `c`. There is always one more piece than separator, so
      even the empty string yields one (empty) piece. */
  function Split(s: string, c: char): (parts: seq<string>)
    ensures |parts| == Count(s, c) + 1
    ensures forall i :: 0 <= i < |parts| ==> c !in parts[i]
    ensures Join(parts, [c]) == s
  {
    if |s| == 0 then [""]
    else
      var rest := Split(s[1..], c);
      if s[0] == c then
        assert s == [c] + s[1..];
        [""] + rest
      else
        assert s == [s[0]] + s[1..];
        [[s[0]] + rest[0]] + rest[1..]
  }

  /** Splitting a string that starts with a separator-free prefix `a` glues
      `a` onto the first piece and leaves the other pieces alone. */
  lemma {:induction false} SplitPrefix(a: string, rest: string, c: char)
    requires c !in a
    ensures Split(a + rest, c) == [a + Split(rest, c)[0]] + Split(rest, c)[1..]
  {
    if |a| == 0 {
      var r := Split(rest, c);
      assert a + rest == rest && a + r[0] == r[0];
      assert r == [r[0]] + r[1..];
    } else {
      var a' := a[1..];
      assert (a + rest)[0] == a[0] && (a + rest)[1..] == a' + rest;
      assert c !in a';
      SplitPrefix(a', rest, c);
      var r := Split(a' + rest, c);
      assert Split(a + rest, c) == [[a[0]] + r[0]] + r[1..];
      assert a == [a[0]] + a';
      assert [a[0]] + r[0] == a + Split(rest, c)[0];
    }
  }

  /** Splitting undoes joining: joining separator-free pieces with `c` and
      splitting the result on `c` gives the pieces back. */
  lemma {:induction false} SplitJoin(parts: seq<string>, c: char)
    requires |parts| >= 1
    requires forall i :: 0 <= i < |parts| ==> c !in parts[i]
    ensures Split(Join(parts, [c]), c) == parts
  {
    if |parts| == 1 {
      SplitPrefix(parts[0], "", c);
      assert parts[0] + "" == parts[0];
    } else {
      var tail := parts[1..];
      SplitJoin(tail, c);
      var j := Join(tail, [c]);
      assert Join(parts, [c]) == parts[0] + ([c] + j);
      SplitPrefix(parts[0], [c] + j, c);
      assert ([c] + j)[0] == c && ([c] + j)[1..] == j;
      var r := Split([c] + j, c);
      assert r == [""] + tail;
      assert r[0] == "" && r[1..] == tail;
      assert parts[0] + r[0] == parts[0];
      assert parts == [parts[0]] + tail;
    }
  }

  /** A string that ends with the separator splits into a last piece that is
      empty. */
  lemma {:induction false} SplitTrailingSeparator(s: string, c: char)
    ensures var parts := Split(s + [c], c); parts[|parts| - 1] == ""
  {
    if |s| == 0 {
      assert s + [c] == [c];
    } else {
      assert (s + [c])[1..] == s[1..] + [c];
      SplitTrailingSeparator(s[1..], c);
      var rest := Split(s[1..] + [c], c);
    }
  }

  predicate IsDigit(ch: char)
  {
    '0' <= ch <= '9'
  }

  /** `s.isdigit()` restricted to ASCII digits: false on the empty string. */
  predicate IsDigits(s: string)
  {
    |s| > 0 && forall i :: 0 <= i < |s| ==> IsDigit(s[i])
  }

  /** A decimal numeral without superfluous leading zeros: what `"%s" % n`
      prints for a non-negative integer `n`. */
  predicate IsCanonical(s: string)
  {
    IsDigits(s) && (s[0] == '0' ==> |s| == 1)
  }

  function DigitValue(ch: char): nat
    requires IsDigit(ch)
  {
    ch as int - '0' as int
  }

  function DigitChar(d: nat): (ch: char)
    requires d < 10
    ensures IsDigit(ch) && DigitValue(ch) == d
  {
    ('0' as int + d) as char
  }

  /** `int(s)` on a string of ASCII digits (the empty string reads as 0). */
  function ValueOf(s: string): nat
    requires forall i :: 0 <= i < |s| ==> IsDigit(s[i])
  {
    if |s| == 0 then 0 else 10 * ValueOf(s[..|s| - 1]) + DigitValue(s[|s| - 1])
  }

  /** `"%s" % n`: the decimal numeral of `n`. */
  function Decimal(n: nat): (s: string)
    ensures IsCanonical(s)
    ensures ValueOf(s) == n
  {
    if n < 10 then [DigitChar(n)]
    else
      var s := Decimal(n / 10) + [DigitChar(n % 10)];
      assert s[..|s| - 1] == Decimal(n / 10);
      s
  }

  /** A numeral whose first digit is not zero has a positive value. */
  lemma {:induction false} LeadingNonZeroPositive(s: string)
    requires IsDigits(s) && s[0] != '0'
    ensures ValueOf(s) > 0
  {
    if |s| > 1 {
      LeadingNonZeroPositive(s[..|s| - 1]);
    }
  }

  /** Reading a canonical numeral and printing it back gives the same text. */
  lemma {:induction false} DecimalOfCanonical(s: string)
    requires IsCanonical(s)
    ensures Decimal(ValueOf(s)) == s
  {
    if |s| > 1 {
      var init := s[..|s| - 1];
      var d := DigitValue(s[|s| - 1]);
      LeadingNonZeroPositive(init);
      DecimalOfCanonical(init);
      var n := ValueOf(s);
      assert n == 10 * ValueOf(init) + d;
      assert n / 10 == ValueOf(init) && n % 10 == d;
      assert s == init + [s[|s| - 1]];
    }
  }

  /** A leading zero does not change the value of a numeral. */
  lemma {:induction false} LeadingZeroValue(s: string)
    requires forall i :: 0 <= i < |s| ==> IsDigit(s[i])
    ensures ValueOf("0" + s) == ValueOf(s)
  {
    if |s| > 0 {
      var t := "0" + s;
      assert t[..|t| - 1] == "0" + s[..|s| - 1];
      LeadingZeroValue(s[..|s| - 1]);
    }
  }

  /** `s` with its leading zeros removed, keeping the last digit. */
  function StripLeadingZeros(s: string): (r: string)
    requires IsDigits(s)
    ensures IsCanonical(r)
    ensures |r| <= |s| && r == s[|s| - |r|..]
    ensures forall i :: 0 <= i < |s| - |r| ==> s[i] == '0'
  {
    if |s| > 1 && s[0] == '0' then StripLeadingZeros(s[1..]) else s
  }

  /** Removing leading zeros keeps the value of a numeral. */
  lemma {:induction false} StripKeepsValue(s: string)
    requires IsDigits(s)
    ensures ValueOf(StripLeadingZeros(s)) == ValueOf(s)
  {
    if |s| > 1 && s[0] == '0' {
      assert s == "0" + s[1..];
      LeadingZeroValue(s[1..]);
      StripKeepsValue(s[1..]);
    }
  }
}
